=== FILE: README.md ===
# Egressinator core, modelled in Dafny

Egressinator finds which outbound TCP ports a perimeter firewall lets
through. The **client** connects from inside to every port of a range and,
on each connection that opens, writes `egressor:<port>`. The **server**
sits outside. It installs two packet-filter rules: an ACCEPT for its own
receiver port and a DNAT that sends every TCP port from the client's source
to that one listener. Each connection it accepts then reports the original
destination port in its payload.

This project models the sequential, deterministic parts of that core:

- `Strings`, `Strconv`: the Go library behaviour the core depends on.
  These are `strings.Split` on a one-character separator, where the field
  count is one more than the separator count, `fmt.Sprintf("%d")` and
  `strconv.Atoi`, including its range check for a 64-bit `int`.
- `Protocol`: the self-report message. It covers the client's encoding,
  the server's split-and-check decoding, the 256-byte read, and the round
  trip between them.
- `Client`: parsing `-range`, validating `-address`, the ordered list of
  probed ports, the worker's behaviour per port, and the scan loop. In the
  scan loop, the `limit` channel is abstracted as a counter of workers in
  flight.
- `Server`: `getIp` and the server's flag validation, which covers the
  required interface, the default source `0.0.0.0/0`, and the address
  taken from the first matching interface.
- `Firewall`: the `Run` lifecycle as a trace of events. The steps are the
  privilege check, the choice of tool, two insertions, the deferred
  removal, the listener, and the teardown at interrupt. `Replay` computes
  the host rule table after a run, with every external command's outcome
  supplied as an oracle.

Points where the program's behaviour is easy to misread:

- The high port is lowered to 65536, not 65535.
- A low port of 0, or one written with `+`, is accepted.
- A bare `egressor:` is accepted with an empty port.
- If the second insertion fails, the first rule is not reverted.
- The deferred teardown uses `log.Fatal`. If the first removal fails, the
  process ends and the NAT rule is never removed.

## Model

| member | source | states |
|---|---|---|
| Strings.Split | server.go:223 | Go `strings.Split` on one character: one field more than there are separators (so never zero fields, even for ""), no field holds the separator, and joining the fields with the separator gives the input back |
| Strings.SplitJoin | client.go:56 | splitting undoes joining whenever no field holds the separator, so a range `lo-hi` with separator-free parts splits into exactly those two parts |
| Strconv.NatDigits | client.go:116 | the `%d` numeral of a non-negative value is all digits, has no leading zero and denotes that value |
| Strconv.Decimal | client.go:116 | `%d` output is non-empty, holds only digits and a leading minus for negatives, so it never contains `:` |
| Strconv.Atoi | client.go:61-69 | `strconv.Atoi` succeeds exactly on an optional sign followed by at least one digit whose value lies in the 64-bit signed range, and then returns that value, with the sign applied; anything else is an error |
| Strconv.AtoiLeadingZero | client.go:61-69 | a leading zero changes nothing: `0` + digits parses like the digits |
| Strconv.AtoiPlusSign | client.go:61-69 | an explicit `+` changes nothing: `+` + digits parses like the digits |
| Strconv.AtoiRejectsSamples | client.go:61-69 | the empty text, a lone `+` or `-`, and `1a` are refused |
| Strconv.AtoiAcceptsSigned | client.go:61-69 | `+5` parses to 5 and `-3` to -3 |
| Strconv.AtoiAcceptsZeroPadded | client.go:61-69 | `007` parses to 7 |
| Strconv.AtoiDecimal | client.go:61-69 | parsing the decimal text of any 64-bit integer gives that integer back |
| Protocol.Encode | client.go:116 | the client's message starts with the tag `egressor` and holds exactly one `:` |
| Protocol.Decode | server.go:223-239 | the "no self-reported port" outcome never happens; an accepted payload is exactly `egressor:` + port with no further `:`; and every such payload is accepted with the text after the colon taken verbatim |
| Protocol.DecodeAcceptsExactlyOneSeparator | server.go:223-237 | a payload is accepted iff it holds exactly one `:` and the text before it is exactly `egressor` |
| Protocol.Received | server.go:204-218 | one read yields a prefix of what was sent, at most 256 characters, and all of it when it fits |
| Protocol.DecodeEncode | server.go:229-239 | decoding the message for any port gives that port's numeral, unchanged |
| Protocol.PortMessageRoundTrip | server.go:204-239 | for ports 0..65536 the message fits the 256-byte buffer, the server accepts it with the numeral of the port, and that numeral parses back to the port |
| Protocol.DecodeRejectsMissingSeparator | server.go:223-231 | a payload without `:`, the empty one included, is one field and is rejected as malformed |
| Protocol.DecodeRejectsExtraFields | server.go:229-232 | two or more `:` mean three or more fields and the payload is rejected |
| Protocol.DecodeRejectsSeparatorFreeSamples | server.go:223-232 | ``, `egressor` and `hello` are rejected |
| Protocol.DecodeRejectsWrongTag | server.go:234-237 | `foo:22` is rejected because its first field is not the tag |
| Protocol.DecodeRejectsThirdField | server.go:229-232 | `egressor:22:x` is rejected |
| Protocol.DecodeAcceptsEmptyPort | server.go:239 | `egressor:` is accepted and reports an empty port: the port field is not checked |
| Client.Clamp | client.go:75-78 | a high port above 65536 becomes exactly 65536, and any other is unchanged |
| Client.ParseRange | client.go:56-78 | the field-count error happens exactly when the range does not hold exactly one `-`; with two fields, a low field that is not an integer is refused first, then a high one, then a low value above the high value; two integer fields with the low value not above the high one are always accepted; an accepted range's low port is the low field's value and its high port is the high field's value lowered to at most 65536, with the low port non-negative |
| Client.ParseRangeAcceptsPaddedAndSigned | client.go:61-78 | a zero-padded low port and a `+`-signed high port are accepted with the values they denote |
| Client.ParseRangeAcceptsSignedLow | client.go:61-78 | a low port written with `+` is accepted with its value |
| Client.ParseRangeRejectsNonNumericLow | client.go:61-64 | `x-1` is refused because its low field is not an integer |
| Client.ParseRangeRejectsNonNumericHigh | client.go:66-69 | `1-x` is refused because its high field is not an integer |
| Client.ParseRangeRoundTrip | client.go:56-78 | every range `lo-hi` with 0 <= lo <= hi <= 65536, written in decimal, parses to exactly (lo, hi) |
| Client.ParseRangeClampsHigh | client.go:75-78 | a high port above 65536 is lowered to 65536 rather than refused |
| Client.ParseRangeRejectsDescending | client.go:71-73 | a low port above the high port is refused, comparing the values as written |
| Client.RangeAboveCeilingScansNothing | client.go:71-78 | because lowering follows the order check, a range entirely above 65536 is accepted but visits no port |
| Client.DefaultRangeParses | client.go:22 | the default range `1-1024` parses to ports 1 to 1024 |
| Client.ClientInit | client.go:50-88 | a bad range is reported before the address is looked at; an address that is neither a CIDR block nor an IP is refused; the flags are accepted exactly when the range parses and the address is a CIDR block or an IP, and an accepted job keeps the flags' address, timeout, threads and verbosity and the parsed range |
| Client.ProbePorts | client.go:97 | the loop visits hi - lo + 1 ports (none when lo > hi), the k-th being lo + k |
| Client.ProbePortsExactlyOnce | client.go:97 | every port of [lo, hi] is visited, nothing else is, and in strictly ascending order, so each port is visited exactly once |
| Client.Worker | client.go:100-124 | the worker logs its "Trying" line iff verbose is set or the port is a multiple of 1000; a message is written iff the connection opens, and that message decodes on the server to this port's numeral; the probe counts as delivered iff both the connection and the write succeed |
| Client.Released | client.go:91-104 | before a send, at most the running workers finish, and afterwards a slot is free; when no worker finishes early, exactly one finishes iff every slot was taken |
| Client.Schedule | client.go:91-128 | after each launch between 1 and the thread limit workers are in flight, the first runs alone, each launch adds at most one, and with no early finishes the count grows by one per launch up to the limit and stays there; the peak is the largest of these counts; every launched worker finishes before the scan returns |
| Client.Scan | client.go:90-131 | the ports launched are exactly the range in ascending order; a "Trying" line is logged for a port iff it is in range and verbose holds or it is a multiple of 1000; the in-flight counts per launch keep to the thread limit as `Schedule` states; every launched worker finishes |
| Client.ScanReportsArriveIntact | client.go:110-117 | for any accepted range, every visited port that connects sends a message the server accepts with that port's numeral, which parses back to the port |
| Server.TrimFrom | server.go:116-120 | the backwards scan from index i stops at the highest separator at an index from 1 to i and cuts there; it returns the whole address when there is none |
| Server.GetIp | server.go:115-122 | the result is a prefix of the address. It is the whole address iff no `:` or `/` appears at index 1 or later. Otherwise it ends just before the last such separator and is non-empty |
| Server.GetIpStripsSuffix | server.go:115-122 | `host` + separator + separator-free suffix trims back to `host` |
| Server.FindInterface | server.go:84-105 | the lookup finds the first interface with the requested name, and none exactly when no interface has that name |
| Server.ServerInit | server.go:56-113 | a missing interface is refused; the source defaults to `0.0.0.0/0`; an explicit address is accepted iff it parses as an IP and is kept, and is refused with the address error otherwise; without one, a failed interface listing, an unknown interface name, a failed address listing and an empty address list are each refused with their own error, and a matching interface with addresses gives `getIp` of its first address |
| Server.DefaultFlagsNeedInterface | server.go:62-69 | with no flags the server refuses to start; with only an interface it uses receiver port 4344 and source `0.0.0.0/0` |
| Server.InitTrimsInterfacePrefix | server.go:88-99 | an interface address `host/prefix` yields the address `host` |
| Firewall.DeleteInputMirrorsInsert | server.go:142-161 | the ACCEPT rule's removal command line equals its insertion command line with `-I` replaced by `-D` and nothing else changed |
| Firewall.DeleteNatMirrorsInsert | server.go:149-169 | the DNAT rule's removal command line equals its insertion command line with `-I` replaced by `-D` and nothing else changed |
| Firewall.DeleteMirrorsInsert | server.go:142-169 | each removal names the very rule its insertion added, for both the INPUT/ACCEPT and the PREROUTING/DNAT rule, and the two rules are different rules |
| Firewall.Run | server.go:126-138 | a non-root user or a missing tool ends the run with an error before any command is issued |
| Firewall.EndpointUnbracketed | server.go:185 | for an address holding a `:` (every IPv6 address), the `address:port` endpoint holds at least two `:` with no brackets around the host |
| Firewall.RunUnregistered | server.go:126-156 | a run that does not get both rules in returns an error after issuing no command, only the failed first insertion, or the first insertion and the failed second; a failed first insertion is reported as the ACCEPT-rule error, and a failed second as the NAT error, exactly in the last case |
| Firewall.RunUsesFamilyTool | server.go:130-137 | every packet-filter command uses the tool of the address family and the listener uses its network |
| Firewall.FamilyChoice | server.go:181-184 | `ip6tables` and `tcp6` are chosen exactly when the address has no IPv4 form, `iptables` and `tcp` otherwise |
| Firewall.RunTearsDownIffBothInserted | server.go:142-174 | removal commands are issued iff both insertions succeeded, whether or not the listener opens; a clean stop requires an open listener and a registered teardown |
| Firewall.RunTeardownOrder | server.go:185-211 | nothing is inserted after a removal, and every removal comes after the listener is closed |
| Firewall.RunRegistered | server.go:158-211 | once both rules are in, the run is the insertions, the listener and the teardown in that order; it aborts naming the removal that fails; with both removals done it is a normal stop when the listener opened and the listener error when it did not |
| Firewall.ReplayTeardown | server.go:158-174 | the teardown removes the ACCEPT rule and then the NAT rule. If the first removal fails, nothing is removed |
| Firewall.ReplayRegistered | server.go:142-174 | once both insertions succeed, the table a run leaves is what the teardown leaves of the starting table plus both rules; the listener changes no rule |
| Firewall.TeardownRestoresTable | server.go:158-174 | after registration, a run ended by the handled interrupt or by the listener failing to open, with both removals succeeding, leaves the host's rule table exactly as it found it |
| Firewall.FailedFirstRemovalStrandsBoth | server.go:158-165 | if removing the ACCEPT rule fails, the process aborts naming that command, the NAT rule is never removed, and both inserted rules stay on the host |
| Firewall.FailedSecondRemovalStrandsNat | server.go:166-172 | if only the NAT removal fails, the process aborts naming that command and exactly the NAT rule stays on the host |
| Firewall.EarlyExitEffect | server.go:126-156 | a run that stops before registering the teardown returns an error. It leaves the rule table unchanged, except that a failed second insertion leaves the ACCEPT rule in place |

## Left out

- main.go's subcommand dispatch, help and usage text: command-line plumbing with no logic of its own.
- Flag parsing with `flag.FlagSet`: the flags arrive as records. Only their defaults (`DefaultFlags`) are modelled.
- `net.Interfaces` and `Addrs`: the interface list is a parameter. `net.ParseIP`, `net.ParseCIDR` and `To4` are boolean oracles, because IP syntax is not modelled.
- `syscall.Getuid`, `exec.LookPath`, running the packet-filter tool and `net.Listen`: they are oracles in `Firewall.Env`. The rule table is a multiset of rule specifications.
- Sockets, dialing, connect and read deadlines, the timeout values, and the accept loop (server.go:190-202). None of these changes a rule or a verdict.
- The read-error branch of the per-connection handler (server.go:218-221). It logs nothing and keeps no state.
- Protocol.Received: a TCP read may return fewer bytes than were sent. The model lets one read deliver everything up to the buffer size. Payloads are modelled as characters, not bytes, so the 256 bound counts characters. This is exact only for ASCII payloads, such as every message the client sends. A non-ASCII payload would be cut at 256 bytes by the program, and invalid UTF-8 cannot be represented at all.
- Goroutines, channels, `sync.WaitGroup` and signal delivery. The model ends the listening phase only at the interrupt the server handles (server.go:179). The scheduler's choice of which workers finish early is a parameter of `Scan`.
- Unhandled signals. Only `os.Interrupt` is subscribed (server.go:179), so SIGTERM or SIGHUP ends the process by Go's default action without running the deferred removal. So does an interrupt arriving after both insertions but before that subscription. Both rules then stay on the host. `Firewall.Run` does not model these endings, so `Firewall.TeardownRestoresTable` speaks only of runs ended by the handled interrupt or a listener failure.
- The shared 256-byte buffer written by concurrent handlers (server.go:204, 218). Each payload is decoded on its own.
- Client.Scan: requires at least one thread, or zero threads with an empty range, and `Client.Schedule` likewise with nothing to launch; `Client.Released` always requires one. With `-threads 0` and a non-empty range, the first send on the unbuffered channel can never complete, and the Go runtime ends the process with "all goroutines are asleep - deadlock!". A negative value makes `make` panic.
- Log message text. Only the conditions under which the "Trying" heartbeat and the verdict lines are emitted are modelled.
- The listener endpoint and the dial target are written `address:port` for both families, and so is the DNAT target. Go's `net.Listen` (server.go:185) and `net.DialTimeout` (client.go:110) require an IPv6 host to be in brackets, and refuse the unbracketed form for having too many colons (`Firewall.EndpointUnbracketed`). So with an IPv6 address the listener never opens, the run ends with the listener error after its teardown, and no probe connects. The model keeps `listens` and `connects` as free oracles and does not force them false in that case.
- Go `int` is taken as 64 bits wide. On a 32-bit target `strconv.Atoi` refuses values outside the 32-bit range, so a range such as `3000000000-3000000000` would be refused there with the low-port error, while the model accepts it.

=== FILE: base.dfy ===
/** Failure-carrying datatypes shared by the client and the server models.
    Go reports failure through a second `error` return value; the model folds
    the value and the error into one datatype. */
module Base {

  /** A value that may be missing. */
  datatype Option<+T> = None | Some(value: T)

  /** Either a value or an error describing why there is none. */
  datatype Result<+T, +E> = Ok(value: T) | Err(error: E)
}

=== FILE: client.dfy ===
/** The client subcommand (client.go): validating the `-range` and
    `-address` flags, then walking the port range with at most `-threads`
    probes in flight, each of which writes the self-report message when its
    connection opens. */
module Client {
  import opened Base
  import opened Strings
  import opened Strconv
  import opened Protocol

  const RangeSeparator: char := '-'

  /** The value a larger high port is lowered to. */
  const PortCeiling: int := 65536

  /** A heartbeat is logged for every port that is a multiple of this. */
  const HeartbeatEvery: int := 1000

  /** Flags as parsed from the command line, before validation. */
  datatype ClientFlags = ClientFlags(
    timeout: int,
    maxThreads: int,
    verbose: bool,
    portRange: string,
    address: string)

  /** Flag defaults: 3 second timeout, 500 threads, quiet, ports 1-1024, no address. */
  const DefaultFlags: ClientFlags := ClientFlags(3, 500, false, "1-1024", "")

  /** A validated scan job. */
  datatype ClientConfig = ClientConfig(
    timeout: int,
    maxThreads: int,
    verbose: bool,
    address: string,
    lo: int,
    hi: int)

  datatype PortRange = PortRange(lo: int, hi: int)

  /** Why a `-range` value is refused; each is fatal. */
  datatype RangeError =
    | WrongFieldCount     // not exactly two fields around `-`
    | BadLow              // first field is not an integer
    | BadHigh             // second field is not an integer
    | LowAboveHigh        // first field greater than second

  datatype ClientError = BadRange(reason: RangeError) | BadAddress

  function Clamp(hi: int): (c: int)
    ensures c <= PortCeiling && c <= hi
    ensures hi <= PortCeiling ==> c == hi
    ensures hi > PortCeiling ==> c == PortCeiling
  {
    if hi > PortCeiling then PortCeiling else hi
  }

  /** Parses `lo-hi`: two fields around `-`, each an integer, the first not
      above the second; the high port is lowered to 65536 only after that
      order check. */
  function ParseRange(s: string): (r: Result<PortRange, RangeError>)
    ensures r == Err(WrongFieldCount) <==> Count(s, RangeSeparator) != 1
    ensures var f := Split(s, RangeSeparator);
      |f| == 2 && Atoi(f[0]).None? ==> r == Err(BadLow)
    ensures var f := Split(s, RangeSeparator);
      |f| == 2 && Atoi(f[0]).Some? && Atoi(f[1]).None? ==> r == Err(BadHigh)
    ensures var f := Split(s, RangeSeparator);
      |f| == 2 && Atoi(f[0]).Some? && Atoi(f[1]).Some? ==>
        (r == Err(LowAboveHigh) <==> Atoi(f[0]).value > Atoi(f[1]).value)
    ensures var f := Split(s, RangeSeparator);
      |f| == 2 && Atoi(f[0]).Some? && Atoi(f[1]).Some? && Atoi(f[0]).value <= Atoi(f[1]).value ==> r.Ok?
    ensures var f := Split(s, RangeSeparator);
      r.Ok? ==>
        && Atoi(f[0]) == Some(r.value.lo)
        && Atoi(f[1]).Some?
        && r.value.lo <= Atoi(f[1]).value
        && r.value.hi == Clamp(Atoi(f[1]).value)
    ensures r.Ok? ==> 0 <= r.value.lo && 0 <= r.value.hi <= PortCeiling
  {
    var fields := Split(s, RangeSeparator);
    if |fields| != 2 then Err(WrongFieldCount)
    else
      match Atoi(fields[0])
      case None => Err(BadLow)
      case Some(lo) =>
        match Atoi(fields[1])
        case None => Err(BadHigh)
        case Some(hi) =>
          if lo > hi then Err(LowAboveHigh)
          else
            assert RangeSeparator !in fields[0] && RangeSeparator !in fields[1];
            Ok(PortRange(lo, Clamp(hi)))
  }

  /** Validates the flags: the range first, then the address, which must be
      either a CIDR block or a single IP; `isCidr` and `isIp` stand for Go's
      `net.ParseCIDR` and `net.ParseIP` succeeding. Timeout, thread count and
      verbosity pass through unchanged. */
  function ClientInit(flags: ClientFlags, isCidr: string -> bool, isIp: string -> bool)
    : (r: Result<ClientConfig, ClientError>)
    ensures ParseRange(flags.portRange).Err? ==> r == Err(BadRange(ParseRange(flags.portRange).error))
    ensures ParseRange(flags.portRange).Ok? && !isCidr(flags.address) && !isIp(flags.address)
      ==> r == Err(BadAddress)
    ensures r.Ok? <==> ParseRange(flags.portRange).Ok? && (isCidr(flags.address) || isIp(flags.address))
    ensures r.Ok? ==>
      && r.value.address == flags.address
      && r.value.timeout == flags.timeout
      && r.value.maxThreads == flags.maxThreads
      && r.value.verbose == flags.verbose
      && PortRange(r.value.lo, r.value.hi) == ParseRange(flags.portRange).value
  {
    match ParseRange(flags.portRange)
    case Err(e) => Err(BadRange(e))
    case Ok(range) =>
      if !isCidr(flags.address) && !isIp(flags.address) then Err(BadAddress)
      else Ok(ClientConfig(flags.timeout, flags.maxThreads, flags.verbose,
                           flags.address, range.lo, range.hi))
  }

  /** The ports the scan loop visits, in the order it visits them. */
  function ProbePorts(lo: int, hi: int): (ports: seq<int>)
    ensures |ports| == if lo <= hi then hi - lo + 1 else 0
    ensures forall k :: 0 <= k < |ports| ==> ports[k] == lo + k
    decreases hi - lo
  {
    if lo > hi then [] else [lo] + ProbePorts(lo + 1, hi)
  }

  lemma ProbePortsSnoc(lo: int, hi: int)
    requires lo <= hi + 1
    ensures ProbePorts(lo, hi + 1) == ProbePorts(lo, hi) + [hi + 1]
  {
    var a := ProbePorts(lo, hi + 1);
    var b := ProbePorts(lo, hi) + [hi + 1];
    assert |a| == |b|;
    assert forall k :: 0 <= k < |a| ==> a[k] == b[k];
  }

  /** Every port in the range is visited exactly once, in ascending order,
      and nothing outside the range is visited. */
  lemma ProbePortsExactlyOnce(lo: int, hi: int)
    ensures forall p :: p in ProbePorts(lo, hi) <==> lo <= p <= hi
    ensures forall i, j :: 0 <= i < j < |ProbePorts(lo, hi)| ==>
      ProbePorts(lo, hi)[i] < ProbePorts(lo, hi)[j]
  {
    var ports := ProbePorts(lo, hi);
    forall p | lo <= p <= hi
      ensures p in ports
    {
      assert ports[p - lo] == p;
    }
  }

  /** Whether the worker for `port` logs its "Trying" line. */
  predicate Heartbeat(verbose: bool, port: int)
  {
    // Go's `%` truncates toward zero, Dafny's is Euclidean; the two agree on
    // whether the remainder is zero, which is all the test looks at.
    verbose || port % HeartbeatEvery == 0
  }

  datatype ProbeOutcome =
    | Unreachable        // dial failed or timed out: nothing more happens
    | WriteFailed        // connected, but the write failed
    | Delivered          // connected and the message was written

  /** What one worker did: whether it logged a heartbeat, what it wrote, and
      how the probe ended. */
  datatype Probe = Probe(port: int, heartbeat: bool, sent: Option<string>, outcome: ProbeOutcome)

  /** The worker goroutine for one port; `connects` and `writes` stand for
      the dial and the write succeeding. */
  function Worker(port: int, verbose: bool, connects: bool, writes: bool): (w: Probe)
    ensures w.port == port
    ensures w.heartbeat <==> verbose || port % HeartbeatEvery == 0
    ensures w.sent.Some? <==> connects
    ensures w.sent.Some? ==> Decode(w.sent.value) == Reported(Decimal(port))
    ensures w.outcome == Delivered <==> connects && writes
    ensures w.outcome == Unreachable <==> !connects
  {
    var hb := Heartbeat(verbose, port);
    if !connects then Probe(port, hb, None, Unreachable)
    else
      var msg := Encode(port);
      DecodeEncode(port);
      Probe(port, hb, Some(msg), if writes then Delivered else WriteFailed)
  }

  /** No worker is let finish early before any launch. */
  predicate NoneFinishEarly(early: seq<nat>)
  {
    forall j :: 0 <= j < |early| ==> early[j] == 0
  }

  /** Workers in flight just after the k-th launch when none finishes early:
      the pool fills one worker per launch until the limit is reached. */
  function FilledLoad(k: nat, maxThreads: int): int
  {
    if k < maxThreads then k + 1 else maxThreads
  }

  /** The shape every sequence of in-flight counts of the scan has: each
      count within the channel's capacity, the first worker alone, at most
      one more worker per launch, and the filling pattern when no worker
      finishes early. */
  predicate LoadShape(load: seq<nat>, maxThreads: int, early: seq<nat>)
  {
    && (forall k :: 0 <= k < |load| ==> 1 <= load[k] <= maxThreads)
    && (|load| > 0 ==> load[0] == 1)
    && (forall k :: 0 < k < |load| ==> load[k] <= load[k - 1] + 1)
    && (NoneFinishEarly(early) ==> forall k :: 0 <= k < |load| ==> load[k] == FilledLoad(k, maxThreads))
  }

  /** `peak` is the largest count of `load`, or 0 when there is none. */
  predicate IsPeak(peak: nat, load: seq<nat>)
  {
    && (forall k :: 0 <= k < |load| ==> load[k] <= peak)
    && (|load| == 0 ==> peak == 0)
    && (|load| > 0 ==> peak in load)
  }

  lemma LoadShapeExtend(load: seq<nat>, x: nat, maxThreads: int, early: seq<nat>)
    requires LoadShape(load, maxThreads, early)
    requires 1 <= x <= maxThreads
    requires |load| == 0 ==> x == 1
    requires |load| > 0 ==> x <= load[|load| - 1] + 1
    requires NoneFinishEarly(early) ==> x == FilledLoad(|load|, maxThreads)
    ensures LoadShape(load + [x], maxThreads, early)
  {
    var l := load + [x];
    assert forall k :: 0 <= k < |load| ==> l[k] == load[k];
  }

  lemma IsPeakExtend(peak: nat, load: seq<nat>, x: nat)
    requires IsPeak(peak, load)
    ensures IsPeak(if x > peak then x else peak, load + [x])
  {
    var l := load + [x];
    assert forall k :: 0 <= k < |load| ==> l[k] == load[k];
    assert l[|load|] == x;
    if |load| > 0 && x <= peak {
      var i :| 0 <= i < |load| && load[i] == peak;
      assert l[i] == peak;
    }
  }

  /** How many running workers finish before the send for the k-th port
      goes through: those the scheduler lets finish early (at most all of
      them), plus one more when every slot is still taken. */
  function Released(inFlight: nat, maxThreads: int, k: nat, early: seq<nat>): (n: nat)
    requires 1 <= maxThreads && inFlight <= maxThreads
    ensures n <= inFlight
    ensures inFlight - n + 1 <= maxThreads
    ensures NoneFinishEarly(early) ==> n == if inFlight == maxThreads then 1 else 0
  {
    var done := if k >= |early| then 0 else if early[k] <= inFlight then early[k] else inFlight;
    done + if inFlight - done == maxThreads then 1 else 0
  }

  /** The `limit` channel over `n` launches, abstracted as a counter of
      workers in flight. Before the send for the k-th launch the scheduler
      may let some running workers finish (`early[k]` of them, at most as
      many as are running); if every slot is still taken the send blocks
      until one worker finishes. Afterwards `wg.Wait` lets every remaining
      worker finish. The results are the number of workers in flight just
      after each launch, the highest of those, and the number that finished.
      With no slot at all the first send can never go through (the Go
      runtime ends the process as deadlocked), so a launch needs one. */
  method Schedule(n: nat, maxThreads: int, early: seq<nat>) returns (load: seq<nat>, peak: nat, finished: nat)
    requires maxThreads >= 1 || (maxThreads == 0 && n == 0)
    ensures |load| == n
    ensures LoadShape(load, maxThreads, early)
    ensures IsPeak(peak, load)
    ensures finished == n
  {
    load, peak, finished := [], 0, 0;
    var inFlight: nat := 0;
    while |load| < n
      invariant |load| <= n
      invariant inFlight == if |load| == 0 then 0 else load[|load| - 1]
      invariant LoadShape(load, maxThreads, early)
      invariant IsPeak(peak, load)
      invariant finished + inFlight == |load|
      decreases n - |load|
    {
      var released := Released(inFlight, maxThreads, |load|, early);
      inFlight, finished := inFlight - released + 1, finished + released;
      LoadShapeExtend(load, inFlight, maxThreads, early);
      IsPeakExtend(peak, load, inFlight);
      load := load + [inFlight];
      if inFlight > peak {
        peak := inFlight;
      }
    }
    finished := finished + inFlight;
  }

  /** The scan loop of client.go: one worker per port of the range, in
      order, each logging its "Trying" line when the heartbeat condition
      holds, with the `limit` channel as `Schedule` models it. The results
      are the ports launched in order, the ports that log a heartbeat, and
      what `Schedule` reports about the workers in flight. */
  method Scan(lo: int, hi: int, maxThreads: int, verbose: bool, early: seq<nat>)
    returns (launched: seq<int>, trying: set<int>, load: seq<nat>, peak: nat, finished: nat)
    requires maxThreads >= 1 || (maxThreads == 0 && lo > hi)
    ensures launched == ProbePorts(lo, hi)
    ensures forall p :: p in trying <==> lo <= p <= hi && Heartbeat(verbose, p)
    ensures |load| == |launched|
    ensures LoadShape(load, maxThreads, early)
    ensures IsPeak(peak, load)
    ensures finished == |launched|
  {
    launched, trying := [], {};
    var port := lo;
    while port <= hi
      invariant lo <= port
      invariant lo <= hi ==> port <= hi + 1
      invariant hi < lo ==> port == lo
      invariant launched == ProbePorts(lo, port - 1)
      invariant forall p :: p in trying <==> lo <= p < port && Heartbeat(verbose, p)
      decreases hi - port
    {
      ProbePortsSnoc(lo, port - 1);
      launched := launched + [port];
      if Heartbeat(verbose, port) {
        trying := trying + {port};
      }
      port := port + 1;
    }
    load, peak, finished := Schedule(|launched|, maxThreads, early);
  }

  /** Protocol round trip over a whole scan: for any range the parser
      accepts, every port the loop visits and connects to sends a message the
      server accepts, reporting the numeral of that port, which parses back
      to the port. */
  lemma ScanReportsArriveIntact(s: string, port: int, verbose: bool, writes: bool)
    requires ParseRange(s).Ok?
    requires port in ProbePorts(ParseRange(s).value.lo, ParseRange(s).value.hi)
    ensures Worker(port, verbose, true, writes).sent.Some?
    ensures Decode(Received(Worker(port, verbose, true, writes).sent.value)) == Reported(Decimal(port))
    ensures Atoi(Decimal(port)) == Some(port)
  {
    var range := ParseRange(s).value;
    ProbePortsExactlyOnce(range.lo, range.hi);
    PortMessageRoundTrip(port);
  }

  /** Printing a range and parsing it back gives the same range, for every
      range of ports up to 65536. */
  lemma ParseRangeRoundTrip(lo: int, hi: int)
    requires 0 <= lo <= hi <= PortCeiling
    ensures ParseRange(Decimal(lo) + [RangeSeparator] + Decimal(hi)) == Ok(PortRange(lo, hi))
  {
    SplitPair(Decimal(lo), Decimal(hi), RangeSeparator);
    AtoiDecimal(lo);
    AtoiDecimal(hi);
  }

  /** A low port written with an explicit `+` is accepted as its value. */
  lemma ParseRangeAcceptsSignedLow(lo: int, hi: int)
    requires 0 <= lo <= hi <= PortCeiling
    ensures ParseRange(['+'] + Decimal(lo) + [RangeSeparator] + Decimal(hi)) == Ok(PortRange(lo, hi))
  {
    var low := ['+'] + Decimal(lo);
    assert forall k :: 1 <= k < |low| ==> low[k] == Decimal(lo)[k - 1];
    assert RangeSeparator !in low;
    SplitPair(['+'] + Decimal(lo), Decimal(hi), RangeSeparator);
    AtoiDecimal(lo);
    AtoiDecimal(hi);
    AtoiPlusSign(Decimal(lo));
  }

  /** A low field that is not an integer is refused. */
  lemma ParseRangeRejectsNonNumericLow()
    ensures ParseRange("x-1") == Err(BadLow)
  {
    var f := Split("x-1", RangeSeparator);
    assert "x-1" == "x" + [RangeSeparator] + "1";
    SplitPair("x", "1", RangeSeparator);
    assert Atoi(f[0]) == None by {
      assert f[0][0] == 'x';
    }
  }

  /** A high field that is not an integer is refused. */
  lemma ParseRangeRejectsNonNumericHigh()
    ensures ParseRange("1-x") == Err(BadHigh)
  {
    var f := Split("1-x", RangeSeparator);
    assert "1-x" == "1" + [RangeSeparator] + "x";
    SplitPair("1", "x", RangeSeparator);
    assert Atoi(f[0]) == Some(1) by {
      assert Unsigned("1") == "1";
      assert DigitsValue("1") == 1;
    }
    assert Atoi(f[1]) == None by {
      assert f[1][0] == 'x';
    }
  }

  /** Zero padding on the low port and an explicit `+` on the high port are
      both accepted with the values they denote. */
  lemma ParseRangeAcceptsPaddedAndSigned(lo: int, hi: int)
    requires 0 <= lo <= hi <= PortCeiling
    ensures ParseRange(['0'] + Decimal(lo) + [RangeSeparator] + ['+'] + Decimal(hi)) == Ok(PortRange(lo, hi))
  {
    var low, high := ['0'] + Decimal(lo), ['+'] + Decimal(hi);
    assert forall k :: 1 <= k < |low| ==> low[k] == Decimal(lo)[k - 1];
    assert forall k :: 1 <= k < |high| ==> high[k] == Decimal(hi)[k - 1];
    assert RangeSeparator !in low && RangeSeparator !in high;
    assert AllDigits(Decimal(lo)) && AllDigits(Decimal(hi));
    assert ['0'] + Decimal(lo) + [RangeSeparator] + ['+'] + Decimal(hi) == low + [RangeSeparator] + high;
    SplitPair(low, high, RangeSeparator);
    AtoiDecimal(lo);
    AtoiDecimal(hi);
    AtoiLeadingZero(Decimal(lo));
    AtoiPlusSign(Decimal(hi));
  }

  /** A high port above 65536 is lowered to 65536 rather than refused. */
  lemma ParseRangeClampsHigh(lo: int, hi: int)
    requires 0 <= lo <= hi <= MaxInt64 && hi > PortCeiling
    ensures ParseRange(Decimal(lo) + [RangeSeparator] + Decimal(hi)) == Ok(PortRange(lo, PortCeiling))
  {
    SplitPair(Decimal(lo), Decimal(hi), RangeSeparator);
    AtoiDecimal(lo);
    AtoiDecimal(hi);
  }

  /** The order check compares the values as written, before any lowering. */
  lemma ParseRangeRejectsDescending(lo: int, hi: int)
    requires 0 <= hi < lo <= MaxInt64
    ensures ParseRange(Decimal(lo) + [RangeSeparator] + Decimal(hi)) == Err(LowAboveHigh)
  {
    SplitPair(Decimal(lo), Decimal(hi), RangeSeparator);
    AtoiDecimal(lo);
    AtoiDecimal(hi);
  }

  /** Because lowering comes after the order check, a range entirely above
      65536 is accepted but yields a low port above the high one, so the
      scan visits no port at all. */
  lemma RangeAboveCeilingScansNothing(lo: int, hi: int)
    requires PortCeiling < lo <= hi <= MaxInt64
    ensures ParseRange(Decimal(lo) + [RangeSeparator] + Decimal(hi)).Ok?
    ensures ProbePorts(ParseRange(Decimal(lo) + [RangeSeparator] + Decimal(hi)).value.lo,
                       ParseRange(Decimal(lo) + [RangeSeparator] + Decimal(hi)).value.hi) == []
  {
    ParseRangeClampsHigh(lo, hi);
  }

  /** The default `-range` value is ports 1 to 1024. */
  lemma DefaultRangeParses()
    ensures ParseRange(DefaultFlags.portRange) == Ok(PortRange(1, 1024))
  {
    assert Decimal(1) == "1";
    assert Decimal(1024) == "1024" by {
      assert NatDigits(1024) == NatDigits(102) + ['4'];
      assert NatDigits(102) == NatDigits(10) + ['2'];
      assert NatDigits(10) == NatDigits(1) + ['0'];
    }
    assert DefaultFlags.portRange == Decimal(1) + [RangeSeparator] + Decimal(1024);
    ParseRangeRoundTrip(1, 1024);
  }
}

=== FILE: firewall.dfy ===
/** The server's `Run` (server.go): the privilege and tool checks, the two
    packet-filter rules it inserts, the deferred removal it registers once
    both are in, the listener, and the teardown after an interrupt.

    Everything outside the process is an oracle held in `Env`: the user id,
    which executables are on the PATH, whether the address has an IPv4 form,
    whether a given packet-filter command line succeeds, and whether the
    listener opens. A run is described by the trace of externally visible
    events it causes; `Replay` gives those events' effect on the host's rule
    table, which is how the "every inserted rule is removed" promise is
    stated. */
module Firewall {
  import opened Strings
  import opened Strconv
  import opened Server

  /** Ports redirected by the NAT rule: every TCP destination port. */
  const AllPorts: string := "1:65535"

  /** Position of `-I` / `-D` in a command line, counting the executable as 0. */
  const ActionIndex: nat := 3

  /** The packet-filter tool for the address family. */
  function Executable(ipv6: bool): string
  {
    if ipv6 then "ip6tables" else "iptables"
  }

  /** The listener's network for the address family. */
  function Network(ipv6: bool): string
  {
    if ipv6 then "tcp6" else "tcp"
  }

  /** `address:port` as the listener and the NAT target write it. */
  function Endpoint(cfg: ServerConfig): string
  {
    cfg.address + ":" + Decimal(cfg.port)
  }

  /** An IPv6 address holds a `:` of its own, so its endpoint carries at
      least two and the host is not set off in brackets: the form Go's
      `net.Listen` refuses as having too many colons. */
  lemma EndpointUnbracketed(cfg: ServerConfig)
    requires ':' in cfg.address
    ensures Count(Endpoint(cfg), ':') >= 2
  {
    var e := Endpoint(cfg);
    var i :| 0 <= i < |cfg.address| && cfg.address[i] == ':';
    assert e[i] == ':';
    assert e[|cfg.address|] == ':';
    CountAtLeastTwo(e, i, |cfg.address|, ':');
  }

  /** Accept TCP to the receiver port from the source network on the interface. */
  function InsertInputArgs(exe: string, cfg: ServerConfig): seq<string>
  {
    [exe, "-t", "filter", "-I", "INPUT", "-s", cfg.src, "-i", cfg.iface,
     "-p", "tcp", "-m", "tcp", "--dport", Decimal(cfg.port), "-j", "ACCEPT"]
  }

  /** Redirect every TCP port from the source network on the interface to the receiver. */
  function InsertNatArgs(exe: string, cfg: ServerConfig): seq<string>
  {
    [exe, "-t", "nat", "-I", "PREROUTING", "-s", cfg.src, "-i", cfg.iface,
     "-p", "tcp", "--dport", AllPorts, "-j", "DNAT", "--to-destination", Endpoint(cfg)]
  }

  function DeleteInputArgs(exe: string, cfg: ServerConfig): seq<string>
  {
    [exe, "-t", "filter", "-D", "INPUT", "-s", cfg.src, "-i", cfg.iface,
     "-p", "tcp", "-m", "tcp", "--dport", Decimal(cfg.port), "-j", "ACCEPT"]
  }

  function DeleteNatArgs(exe: string, cfg: ServerConfig): seq<string>
  {
    [exe, "-t", "nat", "-D", "PREROUTING", "-s", cfg.src, "-i", cfg.iface,
     "-p", "tcp", "--dport", AllPorts, "-j", "DNAT", "--to-destination", Endpoint(cfg)]
  }

  /** `before` and `after` are the same command line except that the action
      word at `ActionIndex` is `-I` in the first and `-D` in the second. */
  predicate Mirrors(before: seq<string>, after: seq<string>)
  {
    && |before| == |after| > ActionIndex
    && before[ActionIndex] == "-I"
    && after[ActionIndex] == "-D"
    && forall k :: 0 <= k < |before| && k != ActionIndex ==> before[k] == after[k]
  }

  /** The rule a command line names: the line without its action word. */
  function RuleSpec(argv: seq<string>): seq<string>
  {
    if |argv| > ActionIndex then argv[..ActionIndex] + argv[ActionIndex + 1..] else argv
  }

  /** The ACCEPT rule's removal command is its insertion command with `-I`
      turned into `-D` and nothing else changed. */
  lemma DeleteInputMirrorsInsert(exe: string, cfg: ServerConfig)
    ensures Mirrors(InsertInputArgs(exe, cfg), DeleteInputArgs(exe, cfg))
  {
  }

  /** The same for the NAT rule, whose target is `address:port`. */
  lemma DeleteNatMirrorsInsert(exe: string, cfg: ServerConfig)
    ensures Mirrors(InsertNatArgs(exe, cfg), DeleteNatArgs(exe, cfg))
  {
  }

  /** Each removal names the rule its insertion added, and the two rules are
      different, so removing one never removes the other. */
  lemma DeleteMirrorsInsert(exe: string, cfg: ServerConfig)
    ensures RuleSpec(InsertInputArgs(exe, cfg)) == RuleSpec(DeleteInputArgs(exe, cfg))
    ensures RuleSpec(InsertNatArgs(exe, cfg)) == RuleSpec(DeleteNatArgs(exe, cfg))
    ensures RuleSpec(InsertInputArgs(exe, cfg)) != RuleSpec(InsertNatArgs(exe, cfg))
  {
    DeleteInputMirrorsInsert(exe, cfg);
    DeleteNatMirrorsInsert(exe, cfg);
    MirrorsSameRule(InsertInputArgs(exe, cfg), DeleteInputArgs(exe, cfg));
    MirrorsSameRule(InsertNatArgs(exe, cfg), DeleteNatArgs(exe, cfg));
    assert RuleSpec(InsertInputArgs(exe, cfg))[2] == "filter";
    assert RuleSpec(InsertNatArgs(exe, cfg))[2] == "nat";
  }

  /** Mirrored command lines name the same rule. */
  lemma MirrorsSameRule(before: seq<string>, after: seq<string>)
    requires Mirrors(before, after)
    ensures RuleSpec(before) == RuleSpec(after)
  {
    assert before[..ActionIndex] == after[..ActionIndex];
    assert before[ActionIndex + 1..] == after[ActionIndex + 1..];
  }

  /** The world outside the process, as far as `Run` can observe it. */
  datatype Env = Env(
    uid: int,                          // `syscall.Getuid()`
    onPath: set<string>,               // executables `exec.LookPath` finds
    hasIPv4Form: bool,                 // `net.ParseIP(address).To4() != nil`
    succeeds: seq<string> -> bool,     // whether a packet-filter command line succeeds
    listens: bool)                     // whether `net.Listen` succeeds

  /** Externally visible steps of a run. */
  datatype Event =
    | Exec(argv: seq<string>, ok: bool)                  // a packet-filter command and its outcome
    | Listen(network: string, endpoint: string, ok: bool)
    | CloseListener

  datatype RunError =
    | NotRoot
    | ToolMissing(exe: string)
    | InsertInputFailed
    | InsertNatFailed
    | ListenFailed

  /** How a run ends: `Run` returns an error, or returns nothing after an
      interrupt, or a failed removal in the deferred teardown ends the
      process on the spot (`log.Fatal`). */
  datatype RunResult =
    | Refused(error: RunError)
    | Stopped
    | Aborted(failedRemoval: seq<string>)

  datatype Session = Session(events: seq<Event>, result: RunResult)

  predicate InsertsRule(argv: seq<string>)
  {
    |argv| > ActionIndex && argv[ActionIndex] == "-I"
  }

  predicate DeletesRule(argv: seq<string>)
  {
    |argv| > ActionIndex && argv[ActionIndex] == "-D"
  }

  predicate IsInsert(e: Event)
  {
    e.Exec? && InsertsRule(e.argv)
  }

  predicate IsDelete(e: Event)
  {
    e.Exec? && DeletesRule(e.argv)
  }

  /** The action word and tool of each of the four command lines. */
  lemma CommandShapes(exe: string, cfg: ServerConfig)
    ensures InsertsRule(InsertInputArgs(exe, cfg)) && !DeletesRule(InsertInputArgs(exe, cfg))
    ensures InsertsRule(InsertNatArgs(exe, cfg)) && !DeletesRule(InsertNatArgs(exe, cfg))
    ensures DeletesRule(DeleteInputArgs(exe, cfg)) && !InsertsRule(DeleteInputArgs(exe, cfg))
    ensures DeletesRule(DeleteNatArgs(exe, cfg)) && !InsertsRule(DeleteNatArgs(exe, cfg))
    ensures InsertInputArgs(exe, cfg)[0] == exe && InsertNatArgs(exe, cfg)[0] == exe
    ensures DeleteInputArgs(exe, cfg)[0] == exe && DeleteNatArgs(exe, cfg)[0] == exe
  {
  }

  /** Whether any removal command is issued. */
  predicate TearsDown(events: seq<Event>)
  {
    exists k :: 0 <= k < |events| && IsDelete(events[k])
  }

  /** The two insertions, both successful. */
  function Installed(exe: string, cfg: ServerConfig): seq<Event>
  {
    [Exec(InsertInputArgs(exe, cfg), true), Exec(InsertNatArgs(exe, cfg), true)]
  }

  /** The listener: opened and, at the interrupt, closed; or failing to open. */
  function Serving(cfg: ServerConfig, ipv6: bool, listens: bool): seq<Event>
  {
    if listens then [Listen(Network(ipv6), Endpoint(cfg), true), CloseListener]
    else [Listen(Network(ipv6), Endpoint(cfg), false)]
  }

  /** The deferred teardown: remove the ACCEPT rule, and only if that
      succeeds remove the NAT rule, since a failed removal ends the process. */
  function Teardown(exe: string, cfg: ServerConfig, env: Env): seq<Event>
  {
    var d1 := DeleteInputArgs(exe, cfg);
    if !env.succeeds(d1) then [Exec(d1, false)]
    else
      var d2 := DeleteNatArgs(exe, cfg);
      [Exec(d1, true), Exec(d2, env.succeeds(d2))]
  }

  /** Both insertions went through, so the deferred removal is registered. */
  predicate Registered(cfg: ServerConfig, env: Env)
  {
    var exe := Executable(!env.hasIPv4Form);
    && env.uid == 0
    && exe in env.onPath
    && env.succeeds(InsertInputArgs(exe, cfg))
    && env.succeeds(InsertNatArgs(exe, cfg))
  }

  /** The server's `Run` up to the interrupt that ends it (the accept loop in
      between changes no rule). */
  function Run(cfg: ServerConfig, env: Env): (s: Session)
    // no rule is touched unless the process is root and the tool exists
    ensures env.uid != 0 ==> s == Session([], Refused(NotRoot))
    ensures env.uid == 0 && Executable(!env.hasIPv4Form) !in env.onPath ==>
      s == Session([], Refused(ToolMissing(Executable(!env.hasIPv4Form))))
  {
    if env.uid != 0 then Session([], Refused(NotRoot))
    else
      var ipv6 := !env.hasIPv4Form;
      var exe := Executable(ipv6);
      if exe !in env.onPath then Session([], Refused(ToolMissing(exe)))
      else
        var i1 := InsertInputArgs(exe, cfg);
        if !env.succeeds(i1) then Session([Exec(i1, false)], Refused(InsertInputFailed))
        else
          var i2 := InsertNatArgs(exe, cfg);
          if !env.succeeds(i2) then Session([Exec(i1, true), Exec(i2, false)], Refused(InsertNatFailed))
          else
            // from here on the deferred teardown runs on every way out
            var down := Teardown(exe, cfg, env);
            var last := down[|down| - 1];
            var result :=
              if !last.ok then Aborted(last.argv)
              else if env.listens then Stopped
              else Refused(ListenFailed);
            Session(Installed(exe, cfg) + Serving(cfg, ipv6, env.listens) + down, result)
  }

  /** Before registration a run issues at most the two insertions, the
      second only after the first succeeded, and returns an error. */
  lemma RunUnregistered(cfg: ServerConfig, env: Env)
    requires !Registered(cfg, env)
    ensures var exe := Executable(!env.hasIPv4Form);
      var i1 := InsertInputArgs(exe, cfg);
      var i2 := InsertNatArgs(exe, cfg);
      var s := Run(cfg, env);
      && s.result.Refused?
      && (s.events == [] || s.events == [Exec(i1, false)] || s.events == [Exec(i1, true), Exec(i2, false)])
      && (s.result == Refused(InsertNatFailed) <==> s.events == [Exec(i1, true), Exec(i2, false)])
      && (env.uid == 0 && exe in env.onPath && !env.succeeds(i1) ==>
            s == Session([Exec(i1, false)], Refused(InsertInputFailed)))
      && (env.uid == 0 && exe in env.onPath && env.succeeds(i1) ==>
            s == Session([Exec(i1, true), Exec(i2, false)], Refused(InsertNatFailed)))
  {
  }

  /** Every command of `events` runs `exe`, and every listener uses `network`. */
  predicate UsesTool(events: seq<Event>, exe: string, network: string)
  {
    forall k :: 0 <= k < |events| ==>
      && (events[k].Exec? ==> |events[k].argv| > 0 && events[k].argv[0] == exe)
      && (events[k].Listen? ==> events[k].network == network)
  }

  lemma {:induction false} UsesToolConcat(a: seq<Event>, b: seq<Event>, exe: string, network: string)
    requires UsesTool(a, exe, network) && UsesTool(b, exe, network)
    ensures UsesTool(a + b, exe, network)
  {
    forall k | 0 <= k < |a + b|
      ensures (a + b)[k] == if k < |a| then a[k] else b[k - |a|]
    {
    }
  }

  /** Every command uses the tool of the address family, and the listener
      its network. */
  lemma RunUsesFamilyTool(cfg: ServerConfig, env: Env)
    ensures forall e :: e in Run(cfg, env).events && e.Exec? ==>
      |e.argv| > 0 && e.argv[0] == Executable(!env.hasIPv4Form)
    ensures forall e :: e in Run(cfg, env).events && e.Listen? ==> e.network == Network(!env.hasIPv4Form)
  {
    var ipv6 := !env.hasIPv4Form;
    var exe := Executable(ipv6);
    var ev := Run(cfg, env).events;
    CommandShapes(exe, cfg);
    if Registered(cfg, env) {
      RunRegistered(cfg, env);
      var installed := Installed(exe, cfg);
      var serving := Serving(cfg, ipv6, env.listens);
      var down := Teardown(exe, cfg, env);
      assert UsesTool(installed, exe, Network(ipv6));
      assert UsesTool(serving, exe, Network(ipv6));
      assert UsesTool(down, exe, Network(ipv6));
      UsesToolConcat(installed, serving, exe, Network(ipv6));
      UsesToolConcat(installed + serving, down, exe, Network(ipv6));
    } else {
      RunUnregistered(cfg, env);
      assert UsesTool(ev, exe, Network(ipv6));
    }
    assert forall e :: e in ev ==> exists k :: 0 <= k < |ev| && ev[k] == e;
  }

  /** Removal is registered exactly when both insertions succeeded; after
      that it runs whether the listener opened or not, and a clean stop
      needs both the listener and the removals. */
  lemma RunTearsDownIffBothInserted(cfg: ServerConfig, env: Env)
    ensures TearsDown(Run(cfg, env).events) <==> Registered(cfg, env)
    ensures Run(cfg, env).result == Stopped ==> env.listens && Registered(cfg, env)
  {
    var ev := Run(cfg, env).events;
    var exe := Executable(!env.hasIPv4Form);
    CommandShapes(exe, cfg);
    if Registered(cfg, env) {
      RunRegistered(cfg, env);
      var k := |Installed(exe, cfg)| + |Serving(cfg, !env.hasIPv4Form, env.listens)|;
      assert ev[k] == Teardown(exe, cfg, env)[0];
      assert IsDelete(ev[k]);
    } else {
      RunUnregistered(cfg, env);
      assert forall k :: 0 <= k < |ev| ==> IsInsert(ev[k]);
    }
  }

  /** Insertions come only in the first phase, removals only in the last,
      and the listener is not closed in the last. */
  predicate NoDelete(phase: seq<Event>)
  {
    forall k :: 0 <= k < |phase| ==> !IsDelete(phase[k])
  }

  predicate OnlyDeletes(phase: seq<Event>)
  {
    forall k :: 0 <= k < |phase| ==> IsDelete(phase[k])
  }

  /** Three phases, the last made only of removals and the first two free of
      them, put every removal after everything else. */
  lemma {:induction false} PhasesOrdered(a: seq<Event>, b: seq<Event>, c: seq<Event>)
    requires NoDelete(a) && NoDelete(b) && OnlyDeletes(c)
    ensures var ev := a + b + c;
      forall i, j :: 0 <= i < j < |ev| && IsDelete(ev[i]) ==> IsDelete(ev[j])
    ensures var ev := a + b + c;
      forall i, j :: 0 <= i < |ev| && 0 <= j < |ev| && !IsDelete(ev[i]) && IsDelete(ev[j]) ==> i < j
  {
    var ev := a + b + c;
    var n := |a| + |b|;
    forall k | 0 <= k < |ev|
      ensures IsDelete(ev[k]) <==> k >= n
    {
      if k < |a| {
        assert ev[k] == a[k];
      } else if k < n {
        assert ev[k] == b[k - |a|];
      } else {
        assert ev[k] == c[k - n];
      }
    }
  }

  /** Nothing is inserted after a removal, and every removal follows the
      closing of the listener. */
  lemma RunTeardownOrder(cfg: ServerConfig, env: Env)
    ensures var ev := Run(cfg, env).events;
      forall i, j :: 0 <= i < j < |ev| && IsDelete(ev[i]) ==> !IsInsert(ev[j])
    ensures var ev := Run(cfg, env).events;
      forall i, j :: 0 <= i < |ev| && 0 <= j < |ev| && ev[i] == CloseListener && IsDelete(ev[j]) ==> i < j
  {
    var ev := Run(cfg, env).events;
    var ipv6 := !env.hasIPv4Form;
    var exe := Executable(ipv6);
    CommandShapes(exe, cfg);
    if Registered(cfg, env) {
      RunRegistered(cfg, env);
      var installed := Installed(exe, cfg);
      var serving := Serving(cfg, ipv6, env.listens);
      var down := Teardown(exe, cfg, env);
      assert NoDelete(installed);
      assert NoDelete(serving);
      assert OnlyDeletes(down);
      PhasesOrdered(installed, serving, down);
    } else {
      RunUnregistered(cfg, env);
      assert NoDelete(ev);
    }
  }

  /** The host's packet-filter table as a multiset of rules: a successful
      insertion adds the rule its command names, a successful removal takes
      one copy away, anything else leaves the table alone. */
  function Apply(table: multiset<seq<string>>, e: Event): multiset<seq<string>>
  {
    if IsInsert(e) && e.ok then table + multiset{RuleSpec(e.argv)}
    else if IsDelete(e) && e.ok then table - multiset{RuleSpec(e.argv)}
    else table
  }

  function Replay(table: multiset<seq<string>>, events: seq<Event>): multiset<seq<string>>
    decreases |events|
  {
    if |events| == 0 then table else Replay(Apply(table, events[0]), events[1..])
  }

  lemma {:induction false} ReplayConcat(table: multiset<seq<string>>, a: seq<Event>, b: seq<Event>)
    ensures Replay(table, a + b) == Replay(Replay(table, a), b)
    decreases |a|
  {
    if |a| == 0 {
      assert a + b == b;
    } else {
      assert (a + b)[1..] == a[1..] + b;
      ReplayConcat(Apply(table, a[0]), a[1..], b);
    }
  }

  lemma ReplayOne(table: multiset<seq<string>>, e: Event)
    ensures Replay(table, [e]) == Apply(table, e)
  {
    assert [e][1..] == [];
  }

  lemma ReplayInstalled(table: multiset<seq<string>>, exe: string, cfg: ServerConfig)
    ensures Replay(table, Installed(exe, cfg))
      == table + multiset{RuleSpec(InsertInputArgs(exe, cfg))} + multiset{RuleSpec(InsertNatArgs(exe, cfg))}
  {
    var i1 := InsertInputArgs(exe, cfg);
    var i2 := InsertNatArgs(exe, cfg);
    var installed := Installed(exe, cfg);
    CommandShapes(exe, cfg);
    assert installed[1..] == [Exec(i2, true)];
    assert Apply(table, Exec(i1, true)) == table + multiset{RuleSpec(i1)};
    ReplayOne(table + multiset{RuleSpec(i1)}, Exec(i2, true));
  }

  lemma ReplayServing(table: multiset<seq<string>>, cfg: ServerConfig, ipv6: bool, listens: bool)
    ensures Replay(table, Serving(cfg, ipv6, listens)) == table
  {
    var serving := Serving(cfg, ipv6, listens);
    ReplayOne(table, serving[|serving| - 1]);
    if listens {
      assert serving[1..] == [CloseListener];
    }
  }

  /** The shape of a run once the teardown is registered. */
  lemma RunRegistered(cfg: ServerConfig, env: Env)
    requires Registered(cfg, env)
    ensures var exe := Executable(!env.hasIPv4Form);
      Run(cfg, env).events
        == Installed(exe, cfg) + Serving(cfg, !env.hasIPv4Form, env.listens) + Teardown(exe, cfg, env)
    ensures var exe := Executable(!env.hasIPv4Form);
      var d1 := DeleteInputArgs(exe, cfg);
      var d2 := DeleteNatArgs(exe, cfg);
      && (!env.succeeds(d1) ==> Run(cfg, env).result == Aborted(d1))
      && (env.succeeds(d1) && !env.succeeds(d2) ==> Run(cfg, env).result == Aborted(d2))
      && (env.succeeds(d1) && env.succeeds(d2) ==> !Run(cfg, env).result.Aborted?)
    // with a clean teardown, the interrupt is a normal stop and a listener
    // that never opened is reported as the error
    ensures var exe := Executable(!env.hasIPv4Form);
      env.succeeds(DeleteInputArgs(exe, cfg)) && env.succeeds(DeleteNatArgs(exe, cfg)) ==>
        Run(cfg, env).result == if env.listens then Stopped else Refused(ListenFailed)
  {
  }

  lemma ReplayTeardown(table: multiset<seq<string>>, exe: string, cfg: ServerConfig, env: Env)
    ensures var d1 := DeleteInputArgs(exe, cfg);
      !env.succeeds(d1) ==> Replay(table, Teardown(exe, cfg, env)) == table
    ensures var d1 := DeleteInputArgs(exe, cfg);
      var d2 := DeleteNatArgs(exe, cfg);
      env.succeeds(d1) ==>
        Replay(table, Teardown(exe, cfg, env))
          == if env.succeeds(d2) then table - multiset{RuleSpec(d1)} - multiset{RuleSpec(d2)}
             else table - multiset{RuleSpec(d1)}
  {
    var down := Teardown(exe, cfg, env);
    if env.succeeds(DeleteInputArgs(exe, cfg)) {
      assert down[1..] == [down[1]];
      ReplayOne(Apply(table, down[0]), down[1]);
    } else {
      ReplayOne(table, down[0]);
    }
  }

  /** Once registered, the rules a run leaves are those the teardown leaves
      of the starting table plus both inserted rules. */
  lemma {:induction false} ReplayRegistered(cfg: ServerConfig, env: Env, table: multiset<seq<string>>)
    requires Registered(cfg, env)
    ensures var exe := Executable(!env.hasIPv4Form);
      Replay(table, Run(cfg, env).events)
        == Replay(table + multiset{RuleSpec(InsertInputArgs(exe, cfg))} + multiset{RuleSpec(InsertNatArgs(exe, cfg))},
                  Teardown(exe, cfg, env))
  {
    var ipv6 := !env.hasIPv4Form;
    var exe := Executable(ipv6);
    var installed := Installed(exe, cfg);
    var serving := Serving(cfg, ipv6, env.listens);
    var mid := table + multiset{RuleSpec(InsertInputArgs(exe, cfg))} + multiset{RuleSpec(InsertNatArgs(exe, cfg))};
    RunRegistered(cfg, env);
    ReplayConcat(table, installed + serving, Teardown(exe, cfg, env));
    ReplayConcat(table, installed, serving);
    ReplayInstalled(table, exe, cfg);
    ReplayServing(mid, cfg, ipv6, env.listens);
  }

  /** After a full teardown the host's rule table is exactly what it was
      before the run, whether the run ended at an interrupt or because the
      listener did not open. */
  lemma {:induction false} TeardownRestoresTable(cfg: ServerConfig, env: Env, table: multiset<seq<string>>)
    requires Registered(cfg, env)
    requires !Run(cfg, env).result.Aborted?
    ensures Replay(table, Run(cfg, env).events) == table
  {
    var exe := Executable(!env.hasIPv4Form);
    var inputRule := RuleSpec(InsertInputArgs(exe, cfg));
    var natRule := RuleSpec(InsertNatArgs(exe, cfg));
    RunRegistered(cfg, env);
    ReplayRegistered(cfg, env, table);
    DeleteMirrorsInsert(exe, cfg);
    ReplayTeardown(table + multiset{inputRule} + multiset{natRule}, exe, cfg, env);
  }

  /** When the first removal fails the process ends there: the second
      removal is never attempted and both rules stay on the host. */
  lemma {:induction false} FailedFirstRemovalStrandsBoth(cfg: ServerConfig, env: Env, table: multiset<seq<string>>)
    requires Registered(cfg, env)
    requires !env.succeeds(DeleteInputArgs(Executable(!env.hasIPv4Form), cfg))
    ensures Run(cfg, env).result == Aborted(DeleteInputArgs(Executable(!env.hasIPv4Form), cfg))
    ensures var exe := Executable(!env.hasIPv4Form);
      Replay(table, Run(cfg, env).events)
        == table + multiset{RuleSpec(InsertInputArgs(exe, cfg))} + multiset{RuleSpec(InsertNatArgs(exe, cfg))}
  {
    var exe := Executable(!env.hasIPv4Form);
    RunRegistered(cfg, env);
    ReplayRegistered(cfg, env, table);
    ReplayTeardown(table + multiset{RuleSpec(InsertInputArgs(exe, cfg))} + multiset{RuleSpec(InsertNatArgs(exe, cfg))},
                   exe, cfg, env);
  }

  /** When only the second removal fails, the NAT rule stays on the host. */
  lemma {:induction false} FailedSecondRemovalStrandsNat(cfg: ServerConfig, env: Env, table: multiset<seq<string>>)
    requires Registered(cfg, env)
    requires env.succeeds(DeleteInputArgs(Executable(!env.hasIPv4Form), cfg))
    requires !env.succeeds(DeleteNatArgs(Executable(!env.hasIPv4Form), cfg))
    ensures Run(cfg, env).result == Aborted(DeleteNatArgs(Executable(!env.hasIPv4Form), cfg))
    ensures Replay(table, Run(cfg, env).events)
      == table + multiset{RuleSpec(InsertNatArgs(Executable(!env.hasIPv4Form), cfg))}
  {
    var exe := Executable(!env.hasIPv4Form);
    var inputRule := RuleSpec(InsertInputArgs(exe, cfg));
    var natRule := RuleSpec(InsertNatArgs(exe, cfg));
    RunRegistered(cfg, env);
    ReplayRegistered(cfg, env, table);
    DeleteMirrorsInsert(exe, cfg);
    ReplayTeardown(table + multiset{inputRule} + multiset{natRule}, exe, cfg, env);
    assert table + multiset{inputRule} + multiset{natRule} - multiset{inputRule} == table + multiset{natRule};
  }

  /** A run that stops before registering the teardown leaves the table as it
      found it, except that a failure of the second insertion leaves the
      first rule in place: nothing reverts it. */
  lemma {:induction false} EarlyExitEffect(cfg: ServerConfig, env: Env, table: multiset<seq<string>>)
    requires !Registered(cfg, env)
    ensures Run(cfg, env).result.Refused?
    ensures Run(cfg, env).result != Refused(InsertNatFailed) ==> Replay(table, Run(cfg, env).events) == table
    ensures Run(cfg, env).result == Refused(InsertNatFailed) ==>
      Replay(table, Run(cfg, env).events)
        == table + multiset{RuleSpec(InsertInputArgs(Executable(!env.hasIPv4Form), cfg))}
  {
    var exe := Executable(!env.hasIPv4Form);
    var i1 := InsertInputArgs(exe, cfg);
    var i2 := InsertNatArgs(exe, cfg);
    var ev := Run(cfg, env).events;
    CommandShapes(exe, cfg);
    RunUnregistered(cfg, env);
    if ev == [Exec(i1, true), Exec(i2, false)] {
      assert ev[1..] == [Exec(i2, false)];
      assert Apply(table, Exec(i1, true)) == table + multiset{RuleSpec(i1)};
      ReplayOne(table + multiset{RuleSpec(i1)}, Exec(i2, false));
    } else if ev == [Exec(i1, false)] {
      ReplayOne(table, Exec(i1, false));
    }
  }

  /** The address family decides both the tool and the network together:
      `ip6tables` and `tcp6` exactly when the address has no IPv4 form. */
  lemma FamilyChoice(env: Env)
    ensures Executable(!env.hasIPv4Form) == "ip6tables" <==> !env.hasIPv4Form
    ensures Network(!env.hasIPv4Form) == "tcp6" <==> !env.hasIPv4Form
    ensures Executable(!env.hasIPv4Form) == "iptables" <==> Network(!env.hasIPv4Form) == "tcp"
  {
  }
}

=== FILE: protocol.dfy ===
/** The self-report message: the client writes `egressor:<port>` on every
    connection it manages to open, and the server, which cannot see the
    original destination port because NAT has rewritten it, reads one chunk
    of at most 256 bytes and splits it on `:`. */
module Protocol {
  import opened Base
  import opened Strings
  import opened Strconv

  const Tag: string := "egressor"
  const FieldSeparator: char := ':'

  /** Size of the server's read buffer; one read takes at most this many bytes. */
  const ReadBufferSize: nat := 256

  /** What the server concludes about one payload; each case matches one of
      the log lines of the per-connection handler. */
  datatype Verdict =
    | Unreported          // "client didnt self report port"
    | Malformed           // "wasnt in the correct format"
    | Reported(port: string)

  /** The tag followed by one separator and separator-free text. */
  lemma TaggedCount(body: string)
    requires FieldSeparator !in body
    ensures var msg := Tag + [FieldSeparator] + body;
      |msg| > |Tag| && msg[..|Tag|] == Tag && Count(msg, FieldSeparator) == 1
  {
    assert FieldSeparator !in Tag;
    assert Count(Tag, FieldSeparator) == 0;
    assert Count(body, FieldSeparator) == 0;
    CountConcat(Tag + [FieldSeparator], body, FieldSeparator);
    CountConcat(Tag, [FieldSeparator], FieldSeparator);
  }

  /** The payload the client sends after connecting to port `p`. */
  function Encode(p: int): (msg: string)
    ensures |msg| > |Tag| && msg[..|Tag|] == Tag
    ensures Count(msg, FieldSeparator) == 1
  {
    TaggedCount(Decimal(p));
    Tag + [FieldSeparator] + Decimal(p)
  }

  /** `payload` is the tag, one separator, and text free of separators. */
  predicate TaggedPayload(payload: string)
  {
    && |payload| > |Tag|
    && payload[..|Tag| + 1] == Tag + [FieldSeparator]
    && FieldSeparator !in payload[|Tag| + 1..]
  }

  /** The server's check on a payload: split on `:`, require exactly two
      fields and the tag as the first; the second field is taken verbatim,
      so it may be empty or non-numeric. */
  function Decode(payload: string): (v: Verdict)
    ensures !v.Unreported?
    ensures v.Reported? ==>
      payload == Tag + [FieldSeparator] + v.port && FieldSeparator !in v.port
    ensures TaggedPayload(payload) ==> v == Reported(payload[|Tag| + 1..])
  {
    var fields := Split(payload, FieldSeparator);
    assert |fields| == 2 ==> payload == fields[0] + [FieldSeparator] + fields[1] by {
      if |fields| == 2 {
        SplitTwoFields(payload, FieldSeparator);
      }
    }
    assert TaggedPayload(payload) ==> fields == [Tag, payload[|Tag| + 1..]] by {
      if TaggedPayload(payload) {
        assert FieldSeparator !in Tag;
        assert payload == Tag + [FieldSeparator] + payload[|Tag| + 1..];
        SplitPair(Tag, payload[|Tag| + 1..], FieldSeparator);
      }
    }
    if |fields| == 0 then Unreported
    else if |fields| != 2 then Malformed
    else if fields[0] != Tag then Malformed
    else Reported(fields[1])
  }

  /** Acceptance in the terms of the separator count: exactly one `:` with
      the tag before it. */
  lemma DecodeAcceptsExactlyOneSeparator(payload: string)
    ensures Decode(payload).Reported? <==>
      (Count(payload, FieldSeparator) == 1 && payload[..IndexOf(payload, FieldSeparator)] == Tag)
  {
    var fields := Split(payload, FieldSeparator);
    if Count(payload, FieldSeparator) == 1 {
      var i := IndexOf(payload, FieldSeparator);
      assert fields[1..] == [fields[1]];
      assert Join(fields, FieldSeparator) == fields[0] + [FieldSeparator] + fields[1];
      assert payload[..|fields[0]|] == fields[0];
      assert payload[|fields[0]|] == FieldSeparator;
      assert forall j :: 0 <= j < |fields[0]| ==> payload[j] == fields[0][j];
      assert i >= |fields[0]|;
      assert i <= |fields[0]| by {
        assert forall j :: 0 <= j < i ==> payload[..i][j] == payload[j];
      }
    }
  }

  /** The text the server sees: whatever one read returns, at most the buffer size. */
  function Received(sent: string): (chunk: string)
    ensures |chunk| <= ReadBufferSize
    ensures chunk <= sent
    ensures |sent| <= ReadBufferSize ==> chunk == sent
  {
    if |sent| <= ReadBufferSize then sent else sent[..ReadBufferSize]
  }

  /** Decoding the message for any port yields that port's numeral, unchanged. */
  lemma DecodeEncode(p: int)
    ensures Decode(Encode(p)) == Reported(Decimal(p))
  {
    var msg := Encode(p);
    assert msg[..|Tag| + 1] == Tag + [FieldSeparator];
    assert msg[|Tag| + 1..] == Decimal(p);
  }

  /** Every message for a port in 0..65536 fits in one read of the server's
      buffer, so the server decodes exactly the numeral the client sent, and
      that numeral parses back to the port. */
  lemma {:induction false} PortMessageRoundTrip(p: int)
    requires 0 <= p <= 65536
    ensures |Encode(p)| <= ReadBufferSize
    ensures Decode(Received(Encode(p))) == Reported(Decimal(p))
    ensures Atoi(Decimal(p)) == Some(p)
  {
    assert Pow10(5) == 100000;
    NatDigitsLength(p, 5);
    DecodeEncode(p);
    AtoiDecimal(p);
  }

  /** A payload without a separator, the empty one included, is one field
      and is turned away as malformed; the "no self-reported port" outcome is
      therefore never reached. */
  lemma DecodeRejectsMissingSeparator(payload: string)
    requires FieldSeparator !in payload
    ensures Decode(payload) == Malformed
  {
  }

  /** A payload with two or more separators has three or more fields and is
      turned away, whatever its tag. */
  lemma DecodeRejectsExtraFields(payload: string)
    requires Count(payload, FieldSeparator) >= 2
    ensures Decode(payload) == Malformed
  {
  }

  /** Boundary payloads without a separator: empty, tag only, plain word. */
  lemma DecodeRejectsSeparatorFreeSamples()
    ensures Decode("") == Malformed
    ensures Decode("egressor") == Malformed
    ensures Decode("hello") == Malformed
  {
    DecodeRejectsMissingSeparator("");
    DecodeRejectsMissingSeparator("egressor");
    DecodeRejectsMissingSeparator("hello");
  }

  /** A wrong tag is turned away even with a well-formed port. */
  lemma DecodeRejectsWrongTag()
    ensures Decode("foo:22") == Malformed
  {
    SplitPair("foo", "22", FieldSeparator);
    assert "foo:22" == "foo" + [FieldSeparator] + "22";
  }

  /** A third field is turned away even behind the right tag. */
  lemma DecodeRejectsThirdField()
    ensures Decode("egressor:22:x") == Malformed
  {
    var s := "egressor:22:x";
    CountAtLeastTwo(s, 8, 11, FieldSeparator);
    DecodeRejectsExtraFields(s);
  }

  /** The port field is not checked: a bare `egressor:` is accepted with an empty port. */
  lemma DecodeAcceptsEmptyPort()
    ensures Decode("egressor:") == Reported("")
  {
    assert TaggedPayload("egressor:");
  }
}

=== FILE: server.dfy ===
/** Validation of the server subcommand's flags (server.go `Init`) and the
    address trimming helper `getIp` it uses on an interface's first address. */
module Server {
  import opened Base

  /** The source network redirected when `-src` is not given. */
  const AnySource: string := "0.0.0.0/0"

  /** Default of the `-port` flag: the receiver port. */
  const DefaultReceiverPort: int := 4344

  /** Flags as parsed from the command line, before validation. */
  datatype ServerFlags = ServerFlags(iface: string, src: string, port: int, address: string)

  const DefaultFlags: ServerFlags := ServerFlags("", "", DefaultReceiverPort, "")

  /** A validated server session description. */
  datatype ServerConfig = ServerConfig(iface: string, src: string, port: int, address: string)

  /** A network interface as the operating system lists it; `addrs` is None
      when asking for its addresses fails. Each address is in its textual
      form, which for an interface address carries a `/prefix`. */
  datatype Interface = Interface(name: string, addrs: Option<seq<string>>)

  datatype InitError =
    | NoInterfaceGiven       // `-interface` missing
    | BadAddress             // `-address` given but not an IP
    | InterfaceListFailed    // the interface list could not be read
    | AddressListFailed      // the named interface's addresses could not be read
    | NoInterfaceAddress     // the named interface has no address
    | InterfaceNotFound      // no interface has that name

  predicate IsAddrSeparator(c: char)
  {
    c == ':' || c == '/'
  }

  /** The backwards scan of `getIp` from index `i` down to index 1: the text
      before the first separator met, or all of `addr` when index 1 is passed. */
  function TrimFrom(addr: string, i: int): (r: string)
    requires i < |addr|
    ensures r <= addr
    ensures |r| == |addr| ==> forall j :: 1 <= j <= i ==> !IsAddrSeparator(addr[j])
    ensures |r| < |addr| ==>
      && 1 <= |r| <= i
      && IsAddrSeparator(addr[|r|])
      && forall j :: |r| < j <= i ==> !IsAddrSeparator(addr[j])
    decreases i
  {
    if i <= 0 then addr
    else if IsAddrSeparator(addr[i]) then addr[..i]
    else TrimFrom(addr, i - 1)
  }

  /** `getIp`: drops the text from the last `:` or `/` on, so that
      `10.0.0.1/24` becomes `10.0.0.1`. The first character is never looked
      at, and an address with no later separator comes back unchanged. */
  function GetIp(addr: string): (r: string)
    ensures r <= addr
    ensures |r| == |addr| <==> forall j :: 1 <= j < |addr| ==> !IsAddrSeparator(addr[j])
    ensures |r| < |addr| ==>
      && 1 <= |r|
      && IsAddrSeparator(addr[|r|])
      && forall j :: |r| < j < |addr| ==> !IsAddrSeparator(addr[j])
  {
    TrimFrom(addr, |addr| - 1)
  }

  /** Appending a separator and a separator-free suffix to a non-empty host
      is undone by `GetIp`. */
  lemma GetIpStripsSuffix(host: string, sep: char, suffix: string)
    requires |host| >= 1 && IsAddrSeparator(sep)
    requires forall j :: 0 <= j < |suffix| ==> !IsAddrSeparator(suffix[j])
    ensures GetIp(host + [sep] + suffix) == host
  {
    var addr := host + [sep] + suffix;
    var r := GetIp(addr);
    assert addr[|host|] == sep;
    assert forall j :: |host| < j < |addr| ==> addr[j] == suffix[j - |host| - 1];
    assert addr[..|host|] == host;
  }

  /** Index of the first interface called `name`, as the loop in `Init`
      stops at the first match. */
  function FindInterface(ifaces: seq<Interface>, name: string): (r: Option<nat>)
    ensures r.Some? ==>
      && r.value < |ifaces|
      && ifaces[r.value].name == name
      && forall k :: 0 <= k < r.value ==> ifaces[k].name != name
    ensures r.None? ==> forall k :: 0 <= k < |ifaces| ==> ifaces[k].name != name
  {
    if |ifaces| == 0 then None
    else if ifaces[0].name == name then Some(0)
    else match FindInterface(ifaces[1..], name)
      case None => None
      case Some(k) => Some(k + 1)
  }

  /** The address the server binds to when `-address` is not given: the
      first address of the named interface, trimmed by `GetIp`. */
  function InterfaceAddress(ifaces: seq<Interface>, name: string): Result<string, InitError>
  {
    match FindInterface(ifaces, name)
    case None => Err(InterfaceNotFound)
    case Some(k) =>
      match ifaces[k].addrs
      case None => Err(AddressListFailed)
      case Some(addrs) =>
        if |addrs| == 0 then Err(NoInterfaceAddress) else Ok(GetIp(addrs[0]))
  }

  /** Server `Init`: an interface is required; a missing source defaults to
      `0.0.0.0/0`; an explicit address must parse as an IP (`isIp` stands for
      `net.ParseIP` succeeding), otherwise the address comes from the named
      interface (`ifaces` is None when listing interfaces fails). */
  function ServerInit(flags: ServerFlags, isIp: string -> bool, ifaces: Option<seq<Interface>>)
    : (r: Result<ServerConfig, InitError>)
    ensures flags.iface == "" <==> r == Err(NoInterfaceGiven)
    ensures r.Ok? ==>
      && r.value.iface == flags.iface
      && r.value.port == flags.port
      && r.value.src == (if flags.src == "" then AnySource else flags.src)
      && r.value.src != ""
    ensures flags.iface != "" && flags.address != "" ==>
      (r.Ok? <==> isIp(flags.address)) && (r.Ok? ==> r.value.address == flags.address)
    ensures flags.iface != "" && flags.address != "" && !isIp(flags.address) ==> r == Err(BadAddress)
    ensures flags.address == "" && r.Ok? ==>
      && ifaces.Some?
      && FindInterface(ifaces.value, flags.iface).Some?
      && var i := ifaces.value[FindInterface(ifaces.value, flags.iface).value];
         i.addrs.Some? && |i.addrs.value| > 0 && r.value.address <= i.addrs.value[0]
    // the address taken from the interface: each way the lookup can fail,
    // and acceptance with the trimmed first address when it does not
    ensures flags.iface != "" && flags.address == "" && ifaces.None? ==> r == Err(InterfaceListFailed)
    ensures (flags.iface != "" && flags.address == "" && ifaces.Some?
             && FindInterface(ifaces.value, flags.iface).None?) ==> r == Err(InterfaceNotFound)
    ensures (flags.iface != "" && flags.address == "" && ifaces.Some?
             && FindInterface(ifaces.value, flags.iface).Some?) ==>
      var i := ifaces.value[FindInterface(ifaces.value, flags.iface).value];
      && (i.addrs.None? ==> r == Err(AddressListFailed))
      && (i.addrs == Some([]) ==> r == Err(NoInterfaceAddress))
      && (i.addrs.Some? && |i.addrs.value| > 0 ==> r.Ok? && r.value.address == GetIp(i.addrs.value[0]))
  {
    if flags.iface == "" then Err(NoInterfaceGiven)
    else
      var src := if flags.src == "" then AnySource else flags.src;
      if flags.address != "" then
        if !isIp(flags.address) then Err(BadAddress)
        else Ok(ServerConfig(flags.iface, src, flags.port, flags.address))
      else
        match ifaces
        case None => Err(InterfaceListFailed)
        case Some(list) =>
          match InterfaceAddress(list, flags.iface)
          case Err(e) => Err(e)
          case Ok(address) => Ok(ServerConfig(flags.iface, src, flags.port, address))
  }

  /** An interface address in `host/prefix` form yields just the host. */
  lemma InitTrimsInterfacePrefix(flags: ServerFlags, isIp: string -> bool,
                                 rest: seq<Interface>, host: string, prefix: string, more: seq<string>)
    requires flags.iface != "" && flags.address == ""
    requires |host| >= 1
    requires forall j :: 0 <= j < |prefix| ==> !IsAddrSeparator(prefix[j])
    ensures ServerInit(flags, isIp, Some([Interface(flags.iface, Some([host + "/" + prefix] + more))] + rest))
      == Ok(ServerConfig(flags.iface, if flags.src == "" then AnySource else flags.src, flags.port, host))
  {
    GetIpStripsSuffix(host, '/', prefix);
    assert host + "/" + prefix == host + ['/'] + prefix;
  }

  /** With only an interface given, the server uses the default receiver
      port 4344 and redirects connections from any source; with nothing
      given it refuses to start. */
  lemma DefaultFlagsNeedInterface(name: string, isIp: string -> bool, ifaces: Option<seq<Interface>>)
    requires name != ""
    ensures ServerInit(DefaultFlags, isIp, ifaces) == Err(NoInterfaceGiven)
    ensures var r := ServerInit(DefaultFlags.(iface := name), isIp, ifaces);
      r.Ok? ==> r.value.port == 4344 && r.value.src == "0.0.0.0/0"
  {
  }
}

=== FILE: strconv.dfy ===
/** Decimal conversion between Go `int`, taken as 64 bits wide, and text:
    `fmt.Sprintf("%d", n)` and `strconv.Atoi`. */
module Strconv {
  import opened Base

  const MinInt64: int := -0x8000_0000_0000_0000
  const MaxInt64: int := 0x7fff_ffff_ffff_ffff

  predicate IsDigit(c: char)
  {
    '0' <= c <= '9'
  }

  predicate AllDigits(s: string)
  {
    forall k :: 0 <= k < |s| ==> IsDigit(s[k])
  }

  function DigitValue(c: char): nat
    requires IsDigit(c)
  {
    c as int - '0' as int
  }

  function DigitChar(d: nat): (c: char)
    requires d < 10
    ensures IsDigit(c) && DigitValue(c) == d
  {
    ('0' as int + d) as char
  }

  /** Value of a run of decimal digits, most significant digit first. */
  function DigitsValue(s: string): nat
    requires AllDigits(s)
  {
    if |s| == 0 then 0
    else 10 * DigitsValue(s[..|s| - 1]) + DigitValue(s[|s| - 1])
  }

  function Pow10(k: nat): (p: nat)
    ensures p >= 1
  {
    if k == 0 then 1 else 10 * Pow10(k - 1)
  }

  /** The shortest decimal numeral for `n`: digits only, no leading zero. */
  function NatDigits(n: nat): (s: string)
    ensures |s| >= 1 && AllDigits(s)
    ensures DigitsValue(s) == n
    ensures |s| == 1 || s[0] != '0'
  {
    if n < 10 then [DigitChar(n)]
    else
      var s := NatDigits(n / 10) + [DigitChar(n % 10)];
      assert s[..|s| - 1] == NatDigits(n / 10);
      s
  }

  /** `fmt.Sprintf("%d", n)`: a minus sign for negative values, then the digits. */
  function Decimal(n: int): (s: string)
    ensures |s| >= 1
    ensures forall k :: 0 <= k < |s| ==> IsDigit(s[k]) || (k == 0 && s[k] == '-')
    ensures s[0] == '-' <==> n < 0
  {
    if n < 0 then "-" + NatDigits(-n) else NatDigits(n)
  }

  /** A numeral of `k` digits or fewer covers every value below 10^k. */
  lemma {:induction false} NatDigitsLength(n: nat, k: nat)
    requires 1 <= k && n < Pow10(k)
    ensures |NatDigits(n)| <= k
  {
    if n >= 10 {
      assert k >= 2;
      assert n / 10 < Pow10(k - 1);
      NatDigitsLength(n / 10, k - 1);
    }
  }

  /** The digits of `s` after an optional leading `+` or `-`. */
  function Unsigned(s: string): string
  {
    if |s| > 0 && (s[0] == '+' || s[0] == '-') then s[1..] else s
  }

  /** An optional sign followed by at least one decimal digit and nothing else. */
  predicate Numeral(s: string)
  {
    |Unsigned(s)| >= 1 && AllDigits(Unsigned(s))
  }

  /** The integer a numeral denotes: its digits, negated after a `-`. */
  function NumeralValue(s: string): int
    requires Numeral(s)
  {
    var magnitude: int := DigitsValue(Unsigned(s));
    if s[0] == '-' then -magnitude else magnitude
  }

  /** `strconv.Atoi`: an optional sign, at least one decimal digit and nothing
      else, whose value fits a 64-bit signed integer; anything else is an error. */
  function Atoi(s: string): (r: Option<int>)
    ensures r.Some? <==> Numeral(s) && MinInt64 <= NumeralValue(s) <= MaxInt64
    ensures r.Some? ==> r.value == NumeralValue(s)
    ensures r.Some? ==> |s| >= 1 && (IsDigit(s[0]) || s[0] == '+' || s[0] == '-')
    ensures r.Some? ==> forall k :: 1 <= k < |s| ==> IsDigit(s[k])
    ensures r.Some? && r.value < 0 ==> s[0] == '-'
  {
    if !Numeral(s) then None
    else if NumeralValue(s) < MinInt64 || NumeralValue(s) > MaxInt64 then None
    else Some(NumeralValue(s))
  }

  /** A leading zero does not change the value of a run of digits. */
  lemma {:induction false} DigitsValueLeadingZero(d: string)
    requires AllDigits(d)
    ensures AllDigits(['0'] + d) && DigitsValue(['0'] + d) == DigitsValue(d)
    decreases |d|
  {
    var z := ['0'] + d;
    assert AllDigits(z) by {
      assert forall k :: 1 <= k < |z| ==> z[k] == d[k - 1];
    }
    if |d| > 0 {
      var init := d[..|d| - 1];
      assert z[..|z| - 1] == ['0'] + init;
      assert z[|z| - 1] == d[|d| - 1];
      DigitsValueLeadingZero(init);
    }
  }

  /** `Atoi` accepts leading zeros: `007` is 7. */
  lemma AtoiLeadingZero(d: string)
    requires |d| >= 1 && AllDigits(d)
    ensures Atoi(['0'] + d) == Atoi(d)
  {
    DigitsValueLeadingZero(d);
    assert Unsigned(['0'] + d) == ['0'] + d;
    assert Unsigned(d) == d;
  }

  /** `Atoi` accepts an explicit `+`: `+5` is 5. */
  lemma AtoiPlusSign(d: string)
    requires |d| >= 1 && AllDigits(d)
    ensures Atoi(['+'] + d) == Atoi(d)
  {
    assert Unsigned(['+'] + d) == d;
    assert Unsigned(d) == d;
  }

  /** An empty text, a lone sign and a trailing letter are refused. */
  lemma AtoiRejectsSamples()
    ensures Atoi("") == None && Atoi("+") == None && Atoi("-") == None && Atoi("1a") == None
  {
    assert !IsDigit('a');
    assert Unsigned("1a") == "1a";
  }

  /** An explicitly signed numeral is accepted. */
  lemma AtoiAcceptsSigned()
    ensures Atoi("+5") == Some(5) && Atoi("-3") == Some(-3)
  {
    assert Unsigned("+5") == "5";
    assert DigitsValue("5") == 5;
    assert Unsigned("-3") == "3";
    assert DigitsValue("3") == 3;
  }

  /** A zero-padded numeral is accepted with its plain value. */
  lemma AtoiAcceptsZeroPadded()
    ensures Atoi("007") == Some(7)
  {
    assert Atoi("7") == Some(7) by {
      assert Unsigned("7") == "7";
      assert DigitsValue("7") == 7;
    }
    assert "07" == ['0'] + "7";
    AtoiLeadingZero("7");
    assert "007" == ['0'] + "07";
    AtoiLeadingZero("07");
  }

  /** Printing a 64-bit integer in decimal and parsing it back gives the same integer. */
  lemma AtoiDecimal(n: int)
    requires MinInt64 <= n <= MaxInt64
    ensures Atoi(Decimal(n)) == Some(n)
  {
    var s := Decimal(n);
    if n < 0 {
      assert Unsigned(s) == NatDigits(-n);
    } else {
      assert Unsigned(s) == NatDigits(n);
    }
  }
}

=== FILE: strings.dfy ===
/** The part of Go's `strings` package the core relies on: splitting a string
    around a one-character separator. Strings are sequences of characters; the
    separators used by the program (`:` and `-`) are ASCII, so splitting the
    characters and splitting the UTF-8 bytes give the same fields. */
module Strings {

  /** Number of occurrences of `c` in `s` (Go `strings.Count` for a one-character separator). */
  function Count(s: string, c: char): (n: nat)
    ensures n <= |s|
    ensures n == 0 <==> c !in s
  {
    if |s| == 0 then 0
    else (if s[0] == c then 1 else 0) + Count(s[1..], c)
  }

  lemma {:induction false} CountConcat(a: string, b: string, c: char)
    ensures Count(a + b, c) == Count(a, c) + Count(b, c)
  {
    if |a| == 0 {
      assert a + b == b;
    } else {
      assert (a + b)[1..] == a[1..] + b;
      CountConcat(a[1..], b, c);
    }
  }

  /** Two occurrences of `c` at different positions count at least twice. */
  lemma CountAtLeastTwo(s: string, i: nat, j: nat, c: char)
    requires i < j < |s| && s[i] == c && s[j] == c
    ensures Count(s, c) >= 2
  {
    assert s == s[..j] + s[j..];
    CountConcat(s[..j], s[j..], c);
    assert s[..j][i] == c;
    assert s[j..][0] == c;
  }

  /** Position of the first occurrence of `c` in `s` (Go `strings.IndexByte`). */
  function IndexOf(s: string, c: char): (i: nat)
    requires c in s
    ensures i < |s| && s[i] == c
    ensures c !in s[..i]
  {
    if s[0] == c then 0
    else
      assert c in s[1..] by { var k :| 0 <= k < |s| && s[k] == c; assert s[1..][k - 1] == c; }
      var i := 1 + IndexOf(s[1..], c);
      assert s[..i] == [s[0]] + s[1..][..i - 1];
      i
  }

  /** Glues fields back together with `sep` between consecutive ones
      (Go `strings.Join`). */
  function Join(fields: seq<string>, sep: char): string
  {
    if |fields| == 0 then ""
    else if |fields| == 1 then fields[0]
    else fields[0] + [sep] + Join(fields[1..], sep)
  }

  /** No field contains the separator. */
  predicate SeparatorFree(fields: seq<string>, sep: char)
  {
    forall k :: 0 <= k < |fields| ==> sep !in fields[k]
  }

  /** Go `strings.Split(s, sep)` for a one-character `sep`: the text between
      consecutive separators, so there is always one field more than there
      are separators, even for the empty string. */
  function Split(s: string, sep: char): (r: seq<string>)
    ensures |r| == Count(s, sep) + 1
    ensures SeparatorFree(r, sep)
    ensures Join(r, sep) == s
    decreases |s|
  {
    if sep !in s then [s]
    else
      var i := IndexOf(s, sep);
      var rest := Split(s[i + 1..], sep);
      assert s == s[..i] + [sep] + s[i + 1..];
      CountConcat(s[..i] + [sep], s[i + 1..], sep);
      CountConcat(s[..i], [sep], sep);
      assert Count(s[..i], sep) == 0;
      assert ([s[..i]] + rest)[1..] == rest;
      [s[..i]] + rest
  }

  /** The first separator of `a + sep + b` is the one after `a` when `a`
      holds none. */
  lemma IndexAfterPrefix(a: string, b: string, sep: char)
    requires sep !in a
    ensures var s := a + [sep] + b;
      sep in s && IndexOf(s, sep) == |a| && s[..|a|] == a && s[|a| + 1..] == b
  {
    var s := a + [sep] + b;
    assert s[|a|] == sep;
    var i := IndexOf(s, sep);
    assert forall j :: 0 <= j < |a| ==> s[j] == a[j];
    assert i >= |a|;
    assert i <= |a| by {
      assert forall j :: 0 <= j < i ==> s[..i][j] == s[j];
    }
    assert s[..|a|] == a;
    assert s[|a| + 1..] == b;
  }

  /** Splitting undoes joining, provided no field holds the separator. */
  lemma {:induction false} SplitJoin(fields: seq<string>, sep: char)
    requires |fields| >= 1
    requires SeparatorFree(fields, sep)
    ensures Split(Join(fields, sep), sep) == fields
    decreases |fields|
  {
    if |fields| == 1 {
      assert sep !in fields[0];
    } else {
      var head, tail := fields[0], fields[1..];
      assert SeparatorFree(tail, sep) by {
        assert forall k :: 0 <= k < |tail| ==> tail[k] == fields[k + 1];
      }
      var rest := Join(tail, sep);
      var s := head + [sep] + rest;
      assert Join(fields, sep) == s;
      IndexAfterPrefix(head, rest, sep);
      assert Split(s, sep) == [head] + Split(rest, sep);
      SplitJoin(tail, sep);
      assert fields == [head] + tail;
    }
  }

  /** A text that splits into two fields is the first field, the separator
      and the second field. */
  lemma SplitTwoFields(s: string, sep: char)
    requires |Split(s, sep)| == 2
    ensures var f := Split(s, sep); s == f[0] + [sep] + f[1]
  {
    var f := Split(s, sep);
    assert f[1..] == [f[1]];
  }

  /** Splitting `a + sep + b` where neither part holds the separator gives
      exactly the two parts. */
  lemma SplitPair(a: string, b: string, sep: char)
    requires sep !in a && sep !in b
    ensures Split(a + [sep] + b, sep) == [a, b]
  {
    var fields := [a, b];
    assert Join(fields, sep) == a + [sep] + b by {
      assert fields[1..] == [b];
    }
    SplitJoin(fields, sep);
  }
}
